=== FILE: README.md ===
# Listing parser: a Dafny model

This project models the parsing half of a two-stage real-estate scraping
pipeline. A Lambda handler (`app`) is triggered by storage-notification
events. For the first event record that names the source bucket
(`parcialbigdatauwu`), it reads the archived HTML page and runs
`extract_data`, which produces one row per property listing.

Rows come from one of two sources:

- the page's JSON-LD block (`data[0]["about"]`);
- only when that produced no rows, the `<a class="listing listing-card">` anchors.

Prices go through `clean_price`, which keeps only digit characters. Floor
areas go through `extract_number`, which computes `int(float(x))` and gives
`"N/A"` when that fails. When rows exist, the handler uploads a CSV text to
`casas-finales-parseadas` under `<date>.csv` and answers 200. Otherwise it
answers 400.

Everything is a pure function over immutable values:

- `pyvalue.dfy` (`PyValue`): the Python values that `json.loads` yields and that
  rows hold (`Json`: `JNull`, `JBool`, `JInt`, `JStr`, `JList`, `JObj`). It also has
  the uncaught exceptions (`KeyError`, `TypeError`, `AttributeError`,
  `IndexError`, `StorageError`) as a `Result`, and Python's `v[k]`, `v[0]` and
  `v.get(k, d)` with their error behaviour.
- `normalise.dfy` (`Normalise`): `clean_price`, `extract_number`, and the decimal
  notation `str()` gives integers.
- `extract.dfy` (`Extract`): `extract_data`. The parsed page is a plain value
  (`Page`): the first linked-data script is absent, has no text, fails to
  decode, or decodes to a `Json`. The cards are a sequence of attribute maps.
  The capture date is a parameter.
- `csv.dfy` (`Csv`): the CSV text built in `save_to_s3`, plus `split` as its partner.
- `handler.dfy` (`Handler`): the record loop and status decision of `app`. The
  object store read, the two clock reads and `str()` of nested values come in
  as an `Environment`.

Behaviours the model pins down, as the code has them:

- Exceptions follow Python's evaluation order, and only `JSONDecodeError` is
  caught. That happens before any row is appended, so it only triggers the
  fallback. Every other failure escapes `extract_data` whole: a listing
  without `"address"`, `data` that is an empty list, a dict, a str or a number, or a
  non-dict `offers`/`floorSize`.
- An event record's bucket and key are both read before the bucket is
  compared. A record of another bucket that lacks a key therefore still
  raises.
- Card rows have seven fields (title and location separately, bathrooms
  `"N/A"`), while the header names six columns. The CSV therefore has one
  more field per card row than it has column names. The model keeps this as
  written (`Extract.CardRow`, `Csv.HeaderColumns`).
- `clean_price` turns a non-empty str without digits into `""`. That includes
  the `"N/A"` default of a missing price. The empty str becomes `"N/A"`.

## Model

| member | source | states |
|---|---|---|
| Normalise.KeepDigits | parser/parser.py:15 | the digit filter never lengthens its input; what it keeps is stated by the lemmas below |
| Normalise.KeepDigitsKeepsExactlyDigits | parser/parser.py:15 | the filtered text holds only digit characters, and every digit of the input as often as it occurs there |
| Normalise.KeepDigitsAppend | parser/parser.py:15 | filtering distributes over concatenation, so the digits keep their original order |
| Normalise.KeepDigitsFixedPoint | parser/parser.py:15 | the filter leaves a text unchanged exactly when every character is a digit |
| Normalise.KeepDigitsDotGroup | parser/parser.py:15 | a thousands dot followed by a run of digits contributes just those digits |
| Normalise.KeepDigitsOfPrice | parser/parser.py:15 | a price written "$" digits "." digits gives the two digit runs joined |
| Normalise.KeepDigitsOfMillions | parser/parser.py:15 | a price written "$" digits "." digits "." digits gives the three digit runs joined |
| Normalise.KeepDigitsSuperscript | parser/parser.py:15 | the superscript two of "m²" is kept, since `str.isdigit` accepts it |
| Normalise.CleanPrice | parser/parser.py:12-16 | the result is always a str; it is "N/A" exactly for non-strs and the empty str, never for a non-empty str |
| Normalise.CleanPriceKeepsExactlyDigits | parser/parser.py:14-15 | for a non-empty str the result holds only digits, and every digit of the input as often as it occurs there |
| Normalise.CleanPriceFixedPoint | parser/parser.py:14-15 | a non-empty all-digit str is returned unchanged |
| Normalise.CleanPriceWithoutDigits | parser/parser.py:14-15 | a non-empty str without digits becomes "" |
| Normalise.CleanPriceOfMissing | parser/parser.py:14-15 | the "N/A" default of a missing price becomes "", not "N/A" |
| Normalise.CleanPriceNotIdempotent | parser/parser.py:14-16 | "abc" gives "", and applying `clean_price` again gives "N/A" |
| Normalise.CleanPriceExample | parser/parser.py:12-16 | "$1.234.000" gives "1234000"; None and 42 give "N/A" |
| Normalise.DecimalRoundTrip | parser/parser.py:21 | reading the digits of a natural number back gives the number |
| Normalise.TruncatedValueOfDecimal | parser/parser.py:21 | in the model's exact-decimal reading, `int(float(t))` of an integer's decimal text, with or without a fractional part, is that integer (truncation toward zero); the source's double rounding differs beyond 2^53 or about 15 significant digits, see Left out |
| Normalise.TruncatedValue | parser/parser.py:21 | within the modelled numeric grammar, a text holding no ASCII digit is not a number (`float()` raises ValueError) |
| Normalise.ExtractNumber | parser/parser.py:18-23 | the result is an int or "N/A": ints pass unchanged (in the source only ints a double holds exactly, all of magnitude at most 2^53, pass unchanged; larger ones are rounded or raise OverflowError, see Left out), bools give 0/1, None/lists/dicts give "N/A", a str without digits gives "N/A" |
| Normalise.ExtractNumberOfRendering | parser/parser.py:20-23 | in the model's exact-decimal reading, every integer's decimal text reads back as itself (the source's double rounding differs beyond 2^53 in magnitude, see Left out); the "N/A" default of a missing area stays "N/A" |
| Normalise.ExtractNumberOfMissing | parser/parser.py:20-23 | the "N/A" default of a missing area is not a number and stays "N/A" |
| Normalise.ExtractNumberExample | parser/parser.py:20-23 | "55.7" gives 55, "30" gives 30, "abc" gives "N/A" |
| Normalise.ExtractNumberNegativeExample | parser/parser.py:21 | "-3.9" gives -3: truncation is toward zero |
| Normalise.ExtractNumberTwoDotsExample | parser/parser.py:20-23 | "1.2.3" is not a number and gives "N/A" |
| Extract.ListingRow | parser/parser.py:37-44 | a listing gives a row exactly when it is a dict with an "address" dict and dict-or-absent "offers"/"floorSize"; otherwise TypeError (not a dict), KeyError (no "address") or AttributeError (a `.get` on a non-dict) |
| Extract.ListingRowFields | parser/parser.py:38-44 | a well-formed listing's row is the date, the address locality, the cleaned offer price, the bedroom and bathroom counts as given and the floor size read as a number, each with the source's default when absent |
| Extract.ListingRows | parser/parser.py:37-44 | the loop succeeds exactly when every listing is well formed and then gives one row per listing in order; otherwise it raises the exception of the first malformed listing |
| Extract.ListingsOf | parser/parser.py:37 | iterating None, an int or a bool raises TypeError; a non-empty str or dict raises TypeError and an empty one yields no rows; only a list can yield rows |
| Extract.FieldIsGet | parser/parser.py:38-42 | on a dict, `v.get(k, d)` cannot raise and gives the field or the default |
| Extract.KeyOfDictRaises | parser/parser.py:37-38 | a str element (what iterating a dict or a str yields) raises TypeError at `apt["address"]` |
| Extract.JsonRows | parser/parser.py:32-46 | no script and an undecodable script give no rows; a script without text raises TypeError; when `data` is a non-empty list whose first element is a dict, the result is the loop over `data[0].get("about", [])`; every row of this path has six fields and starts with the date |
| Extract.AboutPageLoop | parser/parser.py:35-37 | for any decoded `data` whose first element is a dict holding "about" as a list (other keys and further elements allowed), the JSON path is exactly the loop over that list |
| Extract.JsonRowsShape | parser/parser.py:37-44 | every row the JSON loop appends has six fields, the first being the capture date |
| Extract.CardRow | parser/parser.py:52-58 | a card row has seven fields: the date first, "N/A" bathrooms sixth, a str price, and an int or "N/A" area |
| Extract.CardRows | parser/parser.py:50-58 | one row per card, in document order |
| Extract.ExtractData | parser/parser.py:25-60 | raises exactly when the JSON path raises; otherwise the result is either the non-empty JSON rows, or the card rows when the JSON path gave none |
| Extract.NoMixing | parser/parser.py:33-58 | all rows come from one path: all six-field, or all seven-field with "N/A" bathrooms; all start with the same date |
| Extract.FallbackExactlyWhenJsonEmpty | parser/parser.py:48-58 | the cards decide the result when the JSON path completed without rows; otherwise the result is the JSON path's, whatever the cards |
| Extract.UndecodableFallsBack | parser/parser.py:45-49 | an undecodable script behaves like a missing one: the result is the card rows |
| Extract.JsonPathRows | parser/parser.py:36-44 | for any decoded `data` with `data[0]["about"]` a non-empty list of well-formed listings: exactly one six-field row per listing, in order, and the cards are not used |
| Extract.MissingAddressRaises | parser/parser.py:38 | for any decoded `data` with `data[0]["about"]` a list, a listing without "address" (after well-formed ones) makes the whole call raise KeyError: no partial rows and no fallback |
| Extract.MalformedDataRaises | parser/parser.py:35-37 | `data` that is an empty list raises IndexError; a dict raises KeyError; None/int/bool raise TypeError; a non-dict first element raises AttributeError; a non-iterable "about" raises TypeError; a str raises AttributeError (IndexError when empty); any `data` that is not a non-empty list headed by a dict makes the call raise, so the cards are never consulted |
| Extract.ScriptWithoutTextRaises | parser/parser.py:33-35 | a script tag without a single text child raises TypeError from `json.loads(None)`, which is not caught |
| Extract.MissingFieldDefaults | parser/parser.py:39-42 | in a listing, a missing "offers" gives the price "", and a missing "floorSize" gives the area "N/A" |
| Extract.MissingPriceDefault | parser/parser.py:39 | a listing without "offers" gets the price "" (the "N/A" default loses its characters) |
| Extract.MissingAreaDefault | parser/parser.py:42 | a listing without "floorSize" gets the area "N/A" |
| Extract.MissingCardFieldDefaults | parser/parser.py:54-56 | a card without `data-price` gets the price "", and one without `data-floorarea` gets the area "N/A" |
| Extract.SubaScenario | parser/parser.py:36-44 | one Suba listing priced "$700.000" gives the row [date, "Suba", "700000", 1, 1, 30] |
| Extract.CardScenario | parser/parser.py:49-58 | with no script, a card priced "$500.000" with one room and no area gives [date, title, location, "500000", "1", "N/A", "N/A"] |
| Extract.EmptyPage | parser/parser.py:49-60 | with no cards and either no script or the linked data `[{}]`, the result is empty, not an exception |
| Csv.Str | parser/parser.py:65 | `str()` of a str is the str itself, and in the model's exact-decimal reading the text of an int cell reads back through `extract_number` as that int; the source's double rounding differs beyond 2^53 in magnitude, see Left out |
| Csv.JoinSeparatorCount | parser/parser.py:65 | joining separator-free parts puts exactly one separator between each two parts, so n parts give n - 1 separators |
| Csv.JoinAvoids | parser/parser.py:65 | a join holds no character other than the separator that none of its parts holds |
| Csv.SplitJoin | parser/parser.py:65 | splitting a join on its separator gives back the parts, when no part holds the separator |
| Csv.Render | parser/parser.py:64-65 | the text starts with the fixed header followed by a newline |
| Csv.RenderLines | parser/parser.py:64-65 | for rows whose cell texts hold no newline, the text splits into the header and one line per row: rows + 1 lines, no trailing newline |
| Csv.RenderNoRows | parser/parser.py:64-65 | without rows the text is the header and a newline |
| Csv.RowLineFields | parser/parser.py:65 | for cells whose texts hold no comma, a row's line splits back into the `str` of its cells |
| Csv.HeaderIsColumns | parser/parser.py:64 | the header is the six column names joined by commas |
| Csv.HeaderColumns | parser/parser.py:64 | the header splits into exactly the six column names |
| Csv.HeaderHasNoNewline | parser/parser.py:64 | the header line holds no newline |
| Csv.CommaInCellSplitsIt | parser/parser.py:65 | a comma in a cell is not quoted: a one-cell row whose text is `a,b` reads back as the two fields `a` and `b` |
| Csv.IntCellReadsBack | parser/parser.py:65 | in the model's exact-decimal reading, the text `str()` writes for an integer cell is read back by `extract_number` as the same integer; the source's double rounding differs beyond 2^53 in magnitude, see Left out |
| Handler.Location | parser/parser.py:78-79 | a record yields a result exactly when `record["s3"]["bucket"]["name"]` and `record["s3"]["object"]["key"]` can both be read, and the result is that pair; a non-dict record raises TypeError |
| Handler.HandleObject | parser/parser.py:81-102 | for a source-bucket record: 200 exactly when `extract_data` gave rows, with the CSV uploaded to the destination bucket under `<today>.csv`; 400 with no upload exactly when it gave none; otherwise an exception; never None |
| Handler.ProcessRecords | parser/parser.py:77-102 | the loop returns None exactly when every record is readable and none names the source bucket; a response is 200 or 400, 200 exactly when an upload was made, and the upload goes to the destination bucket under `<today>.csv` |
| Handler.App | parser/parser.py:75-102 | a non-dict event raises TypeError, an event without "Records" raises KeyError; a response is 200 or 400, 200 exactly when the CSV was uploaded to the destination bucket under `<today>.csv` |
| Handler.FirstSourceRecordDecides | parser/parser.py:77-81 | when every record before it can be read, records of other buckets are skipped, and the first source-bucket record decides the outcome |
| Handler.FirstUnreadableRaises | parser/parser.py:77-79 | when every record before it can be read and names another bucket, the first record whose bucket or key cannot be read makes the loop raise that record's exception, whatever follows it |
| Handler.NoSourceRecord | parser/parser.py:77-81 | when every record's bucket and key can be read and none names the source bucket, the record loop returns None |
| Handler.MissingKeyRaises | parser/parser.py:78-79 | a record without an object key raises KeyError even if its bucket is not the source bucket |
| Handler.UploadedCsvLines | parser/parser.py:89-92 | the uploaded CSV of a 200 answer is the header followed by one line per extracted row |
| Handler.AppDecidedByFirstSourceRecord | parser/parser.py:77-102 | for any event dict whose "Records" is a list (other keys allowed), when every record before the first source-bucket record can be read, `app` answers 200 exactly when the first source-bucket object gave rows, and 400 exactly when it gave none |
| Handler.AppRecordsShapes | parser/parser.py:77 | an event without "Records" raises KeyError; a non-dict event raises TypeError; an empty dict of records returns None; a non-empty str of records raises TypeError |

## Left out

- HTML parsing (BeautifulSoup) and `json.loads` are foreign libraries. The page is given as their results: the first `application/ld+json` script, and the `listing listing-card` anchors' attribute maps in document order.
- The object store calls (`get_object`, `put_object`) and the module-level client are I/O. The read is a parameter, and the model returns the upload the handler would make. A failing `put_object` is not modelled.
- `datetime.utcnow()` is a clock read. `extract_data`'s date and the CSV name's date are two parameters, because the source reads the clock twice.
- The `print` diagnostics are logging only.
- `scrapper/proyect.py`, the fetcher, is HTTP and storage plumbing and is not part of this model.
- JSON floating-point numbers are not in the `Json` datatype, so a float price, area or bedroom count is not modelled.
- Iterating a dict follows key order, which a `map` does not keep. The model only relies on every key being a str, which the loop body cannot subscript with a str. So a non-empty dict raises TypeError, as in the source.
- Normalise.IsDigit: `str.isdigit` also accepts other Unicode digits, such as Arabic-Indic digits and circled digits. The model accepts the ASCII digits and the Latin-1 superscripts ¹²³ only.
- Normalise.ExtractNumber: does not model the full `float()` grammar. It omits surrounding whitespace, underscores, exponents, `inf`/`nan` and non-ASCII decimal digits; the model answers "N/A" for these. In the source, `int(float("inf"))` raises an uncaught OverflowError. It also truncates the exact decimal rather than the nearest binary double, so it differs from the source on texts with more than about 15 significant digits (`"0.99999999999999999"` gives 1 in Python), and on ints between 2^53 and 2^1024 in magnitude, which `float()` rounds. Beyond the double range the source raises OverflowError, which line 22 does not catch, so it escapes `extract_data` and `app`: `float()` of an int whose magnitude rounds to 2^1024 or more raises it, and a digit text whose value rounds beyond the largest double (about 1.8 × 10^308) becomes `inf`, on which `int()` raises it. The model returns the integer in both cases, since `Exception` has no OverflowError and `extract_number`'s result is not a `Result`.
- Normalise.TruncatedValue: answers "not a number" for every text without an ASCII digit, but `float()` accepts `inf`, `infinity` and `nan` in any case (after which `int()` raises an OverflowError or ValueError; the OverflowError is not caught at line 22), and it reads non-ASCII decimal digits such as "٣" or fullwidth "３０" as numbers.
- Normalise.TruncatedValueOfDecimal: reads the decimal text exactly. In the source, `float()` rounds to the nearest double first, so `"0.99999999999999999"` gives 1 and `"9007199254740993"` gives 9007199254740992; the round trip holds there only for ints of magnitude at most 2^53 and texts of about 15 significant digits or fewer.
- Normalise.ExtractNumberOfRendering: the same exact-decimal reading as `Normalise.TruncatedValueOfDecimal`; the read-back fails in the source beyond 2^53 in magnitude.
- Csv.IntCellReadsBack: the same exact-decimal reading; in the source, `str(n)` read back by `extract_number` gives n only for magnitudes up to 2^53, a rounded value beyond that, and an uncaught OverflowError once `float()` of the text overflows (as for `str(10**309)`).
- Csv.Str: `str()` of a list or dict cell is a parameter (`nested`), because it depends on the JSON key order and Python's `repr` of strings. Its int read-back clause uses the exact-decimal reading described under `Normalise.TruncatedValueOfDecimal` and `Csv.IntCellReadsBack`.

=== FILE: csv.dfy ===
/**
 The CSV text `save_to_s3` uploads: a fixed header line, a newline, then the
 rows, each the `str()` of its cells joined by ",", the rows joined by
 "\n". Nothing is quoted or escaped, so the text splits back into the rows
 and cells exactly when no cell text contains a separator.
 */
module Csv {
  import opened PyValue
  import opened Normalise

  /** "FechaDescarga,Barrio,Valor,NumHabitaciones,NumBanos,mts2". */
  const Header: string := "FechaDescarga" + "," + "Barrio" + "," + "Valor" + "," + "NumHabitaciones"
                          + "," + "NumBanos" + "," + "mts2"

  /** The six column names of the header. */
  const Columns: seq<string> := ["FechaDescarga", "Barrio", "Valor", "NumHabitaciones", "NumBanos", "mts2"]

  /** `str(v)`. A list or dict is rendered by `nested`: its text follows the
      key order of the JSON source and Python's `repr` of strings, neither of
      which this model keeps. */
  function Str(v: Json, nested: Json -> string): (text: string)
    ensures v.JStr? ==> text == v.s
    ensures v.JInt? ==> ExtractNumber(JStr(text)) == v
  {
    match v
    case JNull => "None"
    case JBool(b) => if b then "True" else "False"
    case JInt(i) =>
      ExtractNumberOfRendering(i);
      IntToDecimal(i)
    case JStr(s) => s
    case _ => nested(v)
  }

  /** `sep.join(parts)`. */
  function Join(parts: seq<string>, sep: char): string
  {
    if |parts| == 0 then ""
    else if |parts| == 1 then parts[0]
    else parts[0] + [sep] + Join(parts[1..], sep)
  }

  /** `s.split(sep)`: the pieces between separators, at least one. */
  function Split(s: string, sep: char): (parts: seq<string>)
    ensures |parts| >= 1
  {
    if s == [] then [""]
    else
      var rest := Split(s[1..], sep);
      if s[0] == sep then [""] + rest
      else [[s[0]] + rest[0]] + rest[1..]
  }

  /** `map(str, row)`. */
  function Cells(row: Row, nested: Json -> string): (texts: seq<string>)
    ensures |texts| == |row|
  {
    seq(|row|, i requires 0 <= i < |row| => Str(row[i], nested))
  }

  /** `",".join(map(str, row))`. */
  function RowLine(row: Row, nested: Json -> string): string
  {
    Join(Cells(row, nested), ',')
  }

  function Lines(rows: seq<Row>, nested: Json -> string): (lines: seq<string>)
    ensures |lines| == |rows|
  {
    seq(|rows|, i requires 0 <= i < |rows| => RowLine(rows[i], nested))
  }

  /** The `csv_content` of `save_to_s3`. */
  function Render(rows: seq<Row>, nested: Json -> string): (csv: string)
    ensures |csv| > |Header| && csv[..|Header|] == Header && csv[|Header|] == '\n'
  {
    Header + "\n" + Join(Lines(rows, nested), '\n')
  }

  /** No cell of any row renders to a text holding `c`. */
  predicate NoCellHolds(rows: seq<Row>, c: char, nested: Json -> string) {
    forall i, j :: 0 <= i < |rows| && 0 <= j < |rows[i]| ==> c !in Str(rows[i][j], nested)
  }

  // ----- Splitting a join -----

  lemma {:induction false} SplitWithoutSeparator(s: string, sep: char)
    requires sep !in s
    ensures Split(s, sep) == [s]
  {
    if s != [] {
      SplitWithoutSeparator(s[1..], sep);
      assert [s[0]] + s[1..] == s;
    }
  }

  lemma {:induction false} SplitAtFirstSeparator(a: string, b: string, sep: char)
    requires sep !in a
    ensures Split(a + [sep] + b, sep) == [a] + Split(b, sep)
  {
    var s := a + [sep] + b;
    if a == [] {
      assert s == [sep] + b;
      assert s[1..] == b;
    } else {
      assert s[1..] == a[1..] + [sep] + b;
      SplitAtFirstSeparator(a[1..], b, sep);
      assert [a[0]] + a[1..] == a;
    }
  }

  /** Splitting a join gives back the parts, as long as no part holds the
      separator. */
  lemma {:induction false} SplitJoin(parts: seq<string>, sep: char)
    requires |parts| >= 1
    requires forall i :: 0 <= i < |parts| ==> sep !in parts[i]
    ensures Split(Join(parts, sep), sep) == parts
  {
    if |parts| == 1 {
      SplitWithoutSeparator(parts[0], sep);
    } else {
      SplitJoin(parts[1..], sep);
      SplitAtFirstSeparator(parts[0], Join(parts[1..], sep), sep);
      assert [parts[0]] + parts[1..] == parts;
    }
  }

  /** Joining separator-free parts puts exactly one separator between each
      two of them: n parts give n - 1 separators. */
  lemma {:induction false} JoinSeparatorCount(parts: seq<string>, sep: char)
    requires forall i :: 0 <= i < |parts| ==> sep !in parts[i]
    ensures multiset(Join(parts, sep))[sep] == if |parts| == 0 then 0 else |parts| - 1
  {
    if |parts| > 1 {
      JoinSeparatorCount(parts[1..], sep);
      assert multiset(Join(parts, sep)) == multiset(parts[0]) + multiset([sep]) + multiset(Join(parts[1..], sep));
    } else if |parts| == 1 {
      assert sep !in parts[0];
    }
  }

  /** A join holds no character that is neither the separator nor in a part. */
  lemma {:induction false} JoinAvoids(parts: seq<string>, sep: char, c: char)
    requires c != sep
    requires forall i :: 0 <= i < |parts| ==> c !in parts[i]
    ensures c !in Join(parts, sep)
  {
    if |parts| > 1 {
      JoinAvoids(parts[1..], sep, c);
    }
  }

  // ----- Properties of the rendered text -----

  /** When no cell text holds a newline, the text splits into the header
      followed by one line per row: |rows| + 1 lines, no trailing newline. */
  lemma RenderLines(rows: seq<Row>, nested: Json -> string)
    requires rows != []
    requires NoCellHolds(rows, '\n', nested)
    ensures Split(Render(rows, nested), '\n') == [Header] + Lines(rows, nested)
    ensures |Split(Render(rows, nested), '\n')| == |rows| + 1
  {
    var lines := Lines(rows, nested);
    forall i | 0 <= i < |lines| ensures '\n' !in lines[i] {
      JoinAvoids(Cells(rows[i], nested), ',', '\n');
    }
    SplitJoin(lines, '\n');
    HeaderHasNoNewline();
    assert Render(rows, nested) == Header + ['\n'] + Join(lines, '\n');
    SplitAtFirstSeparator(Header, Join(lines, '\n'), '\n');
  }

  /** `save_to_s3` is only reached with rows; given none, the text would be
      the header and a newline, which splits into two lines, the second
      empty. */
  lemma RenderNoRows(nested: Json -> string)
    ensures Render([], nested) == Header + "\n"
    ensures Split(Render([], nested), '\n') == [Header, ""]
  {
    HeaderHasNoNewline();
    SplitAtFirstSeparator(Header, "", '\n');
    assert Header + "\n" == Header + ['\n'] + "";
  }

  /** When no cell text holds a comma, a row's line splits back into the
      texts of its cells. */
  lemma RowLineFields(row: Row, nested: Json -> string)
    requires |row| >= 1
    requires forall j :: 0 <= j < |row| ==> ',' !in Str(row[j], nested)
    ensures Split(RowLine(row, nested), ',') == Cells(row, nested)
  {
    SplitJoin(Cells(row, nested), ',');
  }

  lemma JoinCons(first: string, rest: seq<string>, sep: char)
    requires |rest| >= 1
    ensures Join([first] + rest, sep) == first + [sep] + Join(rest, sep)
  {
    assert ([first] + rest)[1..] == rest;
  }

  /** The header line is the six column names joined by commas. */
  lemma HeaderIsColumns()
    ensures Join(Columns, ',') == Header
  {
    JoinSix("FechaDescarga", "Barrio", "Valor", "NumHabitaciones", "NumBanos", "mts2", ',');
  }

  lemma JoinSix(a: string, b: string, c: string, d: string, e: string, f: string, sep: char)
    ensures Join([a, b, c, d, e, f], sep) == a + [sep] + b + [sep] + c + [sep] + d + [sep] + e + [sep] + f
  {
    JoinCons(e, [f], sep);
    assert [e] + [f] == [e, f];
    JoinCons(d, [e, f], sep);
    assert [d] + [e, f] == [d, e, f];
    JoinCons(c, [d, e, f], sep);
    assert [c] + [d, e, f] == [c, d, e, f];
    JoinCons(b, [c, d, e, f], sep);
    assert [b] + [c, d, e, f] == [b, c, d, e, f];
    JoinCons(a, [b, c, d, e, f], sep);
    assert [a] + [b, c, d, e, f] == [a, b, c, d, e, f];
  }

  /** The header line splits into the six column names. */
  lemma HeaderColumns()
    ensures Split(Header, ',') == Columns
  {
    HeaderIsColumns();
    ColumnsAvoid(',');
    SplitJoin(Columns, ',');
  }

  /** The header line holds no newline. */
  lemma HeaderHasNoNewline()
    ensures '\n' !in Header
  {
    HeaderIsColumns();
    ColumnsAvoid('\n');
    JoinAvoids(Columns, ',', '\n');
  }

  lemma ColumnsAvoid(c: char)
    requires c == ',' || c == '\n'
    ensures forall i :: 0 <= i < |Columns| ==> c !in Columns[i]
  {
  }

  /** A comma inside a cell is not escaped: a one-cell row whose text is
      `a,b` reads back as the two fields `a` and `b`. */
  lemma CommaInCellSplitsIt(a: string, b: string, nested: Json -> string)
    requires ',' !in a && ',' !in b
    ensures Split(RowLine([JStr(a + "," + b)], nested), ',') == [a, b]
  {
    var cells := Cells([JStr(a + "," + b)], nested);
    assert cells == [a + "," + b];
    assert a + "," + b == a + [','] + b;
    SplitAtFirstSeparator(a, b, ',');
    SplitWithoutSeparator(b, ',');
  }

  /** The decimal text `str()` writes for an integer cell is read back by
      `extract_number` as the same integer. */
  lemma IntCellReadsBack(n: int, nested: Json -> string)
    ensures ExtractNumber(JStr(Str(JInt(n), nested))) == JInt(n)
  {
    ExtractNumberOfRendering(n);
  }
}

=== FILE: extract.dfy ===
/**
 `extract_data`: the two-tier record extractor. The parsed page is given as
 a plain value: what the first `<script type="application/ld+json">` holds,
 and the attribute maps of the `<a class="listing listing-card">` anchors in
 document order. The capture date is a parameter (the source reads the
 clock once per call).
 */
module Extract {
  import opened PyValue
  import opened Normalise

  /** The first linked-data script of the page. */
  datatype Script =
    | NoScript            // no such tag: `soup.find` returned None
    | NoText              // the tag's `.string` is None (no single text child)
    | Undecodable         // `json.loads` raised JSONDecodeError
    | Decoded(data: Json) // `json.loads` returned `data`

  /** The attributes of one listing-card anchor; these are single-valued, so
      BeautifulSoup hands them out as strs. */
  type Card = map<string, string>

  datatype Page = Page(script: Script, cards: seq<Card>)

  // ----- Structured-data path -----

  /** The listing objects the JSON path can turn into a row without raising:
      a dict with an "address" dict, whose "offers" and "floorSize", when
      present, are dicts too. */
  predicate WellFormedListing(apt: Json) {
    && apt.JObj?
    && "address" in apt.fields && apt.fields["address"].JObj?
    && ("offers" in apt.fields ==> apt.fields["offers"].JObj?)
    && ("floorSize" in apt.fields ==> apt.fields["floorSize"].JObj?)
  }

  /** The field `key` of a dict, or the default the source supplies. */
  function Field(m: map<string, Json>, key: string, default: Json): Json {
    if key in m then m[key] else default
  }

  /** `Field` is `Get` on a value already known to be a dict, without the
      `Result`: once `apt["address"]` has succeeded, `apt.get(k, d)` cannot
      raise, and the row is written with `Field`. */
  lemma FieldIsGet(m: map<string, Json>, key: string, default: Json)
    ensures Get(JObj(m), key, default) == Ok(Field(m, key, default))
  {
  }

  /** The loop body over one element `apt` of `about`, in the order Python
      evaluates it. */
  function ListingRow(apt: Json, date: string): (r: Result<Row>)
    ensures r.Ok? <==> WellFormedListing(apt)
    ensures !apt.JObj? ==> r == Err(TypeError)
    ensures apt.JObj? && "address" !in apt.fields ==> r == Err(KeyError)
    ensures apt.JObj? && "address" in apt.fields && !WellFormedListing(apt) ==> r == Err(AttributeError)
  {
    match apt
    case JObj(m) =>
      // `apt["address"]`; once it has succeeded `apt` is a dict, so each
      // `apt.get(k, d)` below is `Field(m, k, d)` and cannot raise.
      if "address" !in m then Err(KeyError)
      else
        var barrio :- Get(m["address"], "addressLocality", NA);
        var price :- Get(Field(m, "offers", JObj(map[])), "price", NA);
        var area :- Get(Field(m, "floorSize", JObj(map[])), "value", NA);
        Ok([JStr(date), barrio, CleanPrice(price),
            Field(m, "numberOfBedrooms", NA), Field(m, "numberOfBathroomsTotal", NA),
            ExtractNumber(area)])
    case _ => Err(TypeError)
  }

  /** The six fields of a listing's row: the capture date, the locality of
      its address, its cleaned offer price, its bedroom and bathroom counts
      as given, and its floor size read as a number, each with the source's
      default when absent. */
  lemma ListingRowFields(apt: Json, date: string)
    requires WellFormedListing(apt)
    ensures var m := apt.fields;
            var offers := Field(m, "offers", JObj(map[]));
            var floor := Field(m, "floorSize", JObj(map[]));
            ListingRow(apt, date) == Ok([JStr(date),
                                         Field(m["address"].fields, "addressLocality", NA),
                                         CleanPrice(Field(offers.fields, "price", NA)),
                                         Field(m, "numberOfBedrooms", NA),
                                         Field(m, "numberOfBathroomsTotal", NA),
                                         ExtractNumber(Field(floor.fields, "value", NA))])
  {
  }

  /** The `for apt in apartaestudios` loop over a list: every element gives
      a row in order, or the first element that raises ends the whole call
      with its exception, so no partial list of rows is ever returned. */
  function ListingRows(xs: seq<Json>, date: string): (r: Result<seq<Row>>)
    ensures r.Ok? <==> forall i :: 0 <= i < |xs| ==> WellFormedListing(xs[i])
    ensures r.Ok? ==> |r.value| == |xs|
    ensures r.Ok? ==> forall i :: 0 <= i < |xs| ==> ListingRow(xs[i], date) == Ok(r.value[i])
    ensures r.Err? ==> FirstMalformed(xs) < |xs| && ListingRow(xs[FirstMalformed(xs)], date) == Err(r.error)
  {
    if xs == [] then Ok([])
    else
      match ListingRow(xs[0], date)
      case Err(e) => Err(e)
      case Ok(first) =>
        var tail := xs[1..];
        match ListingRows(tail, date)
        case Err(e) =>
          assert tail[FirstMalformed(tail)] == xs[FirstMalformed(xs)];
          Err(e)
        case Ok(rest) =>
          var rows := [first] + rest;
          assert forall i :: 0 <= i < |tail| ==> tail[i] == xs[i + 1];
          assert forall i :: 0 <= i < |rest| ==> rows[i + 1] == rest[i];
          Ok(rows)
  }

  /** The index of the first listing the loop body raises on, or the number
      of listings when it raises on none. */
  function FirstMalformed(xs: seq<Json>): (k: nat)
    ensures k <= |xs|
    ensures forall j :: 0 <= j < k ==> WellFormedListing(xs[j])
    ensures k < |xs| ==> !WellFormedListing(xs[k])
  {
    if xs == [] || !WellFormedListing(xs[0]) then 0
    else 1 + FirstMalformed(xs[1..])
  }

  /** `for apt in about` for any value of `about`. Iterating a dict yields its
      keys and iterating a str yields one-character strs; the loop body
      subscripts its element with "address", which raises TypeError on a
      str. So an empty dict yields nothing and a non-empty one raises
      TypeError; numbers, booleans and None are not iterable (TypeError). */
  function ListingsOf(about: Json, date: string): (r: Result<seq<Row>>)
    ensures about.JNull? || about.JInt? || about.JBool? ==> r == Err(TypeError)
    ensures about.JStr? ==> r == if about.s == "" then Ok([]) else Err(TypeError)
    ensures about.JObj? ==> r == if about.fields == map[] then Ok([]) else Err(TypeError)
    ensures r.Ok? && r.value != [] ==> about.JList?
  {
    match about
    case JList(xs) => ListingRows(xs, date)
    case JStr(s) =>
      var chars := Chars(s);
      assert forall i :: 0 <= i < |chars| ==> ListingRow(chars[i], date) == Err(TypeError);
      assert s != "" ==> !WellFormedListing(chars[0]);
      ListingRows(chars, date)
    case JObj(m) => if |m| == 0 then Ok([]) else Err(TypeError)
    case _ => Err(TypeError)
  }

  /** The key of a dict is a str, which the loop body cannot subscript with
      "address": this is why a non-empty dict raises TypeError. */
  lemma KeyOfDictRaises(key: string, date: string)
    ensures ListingRow(JStr(key), date) == Err(TypeError)
  {
  }

  /** The structured-data path: the rows it appends to `registros`, or the
      exception that escapes it. Only JSONDecodeError is caught; it is raised
      before anything is appended. */
  function JsonRows(script: Script, date: string): (r: Result<seq<Row>>)
    ensures script.NoScript? || script.Undecodable? ==> r == Ok([])
    ensures script.NoText? ==> r == Err(TypeError)
    ensures r.Ok? ==> forall i :: 0 <= i < |r.value| ==> |r.value[i]| == 6 && r.value[i][0] == JStr(date)
    ensures script.Decoded? && script.data.JList? && |script.data.items| > 0 && script.data.items[0].JObj? ==>
              r == ListingsOf(Field(script.data.items[0].fields, "about", JList([])), date)
  {
    match script
    case NoScript => Ok([])
    case Undecodable => Ok([])
    case NoText => Err(TypeError)
    case Decoded(data) =>
      var first :- First(data);
      var about :- Get(first, "about", JList([]));
      var rows :- ListingsOf(about, date);
      JsonRowsShape(about, date);
      Ok(rows)
  }

  /** Every row the loop produces has the six JSON-path fields and starts
      with the capture date. */
  lemma JsonRowsShape(about: Json, date: string)
    ensures ListingsOf(about, date).Ok? ==>
              var rows := ListingsOf(about, date).value;
              forall i :: 0 <= i < |rows| ==> |rows[i]| == 6 && rows[i][0] == JStr(date)
  {
    var r := ListingsOf(about, date);
    if r.Ok? {
      if about.JList? || about.JStr? {
        var xs := if about.JList? then about.items else Chars(about.s);
        forall i | 0 <= i < |r.value| ensures |r.value[i]| == 6 && r.value[i][0] == JStr(date) {
          assert ListingRow(xs[i], date) == Ok(r.value[i]);
        }
      }
    }
  }

  // ----- Anchor-card path -----

  /** `card.get(name, "N/A")`. */
  function Attribute(card: Card, name: string): string {
    if name in card then card[name] else "N/A"
  }

  /** The row of one listing card: seven fields, the sixth (bathrooms) always
      "N/A". */
  function CardRow(card: Card, date: string): (row: Row)
    ensures |row| == 7 && row[0] == JStr(date) && row[5] == NA
    ensures row[3].JStr? && (row[6].JInt? || row[6] == NA)
  {
    var price := CleanPrice(JStr(Attribute(card, "data-price")));
    var area := ExtractNumber(JStr(Attribute(card, "data-floorarea")));
    [JStr(date),
     JStr(Attribute(card, "title")),
     JStr(Attribute(card, "data-location")),
     price,
     JStr(Attribute(card, "data-rooms")),
     NA,
     area]
  }

  /** The fallback loop: one row per card, in document order. */
  function CardRows(cards: seq<Card>, date: string): (rows: seq<Row>)
    ensures |rows| == |cards|
    ensures forall i :: 0 <= i < |cards| ==> rows[i] == CardRow(cards[i], date)
  {
    if cards == [] then []
    else [CardRow(cards[0], date)] + CardRows(cards[1..], date)
  }

  // ----- extract_data -----

  /** `extract_data`: the JSON rows when that path appended any, otherwise
      the card rows; an exception escaping the JSON path escapes the call. */
  function ExtractData(page: Page, date: string): (r: Result<seq<Row>>)
    ensures r.Err? <==> JsonRows(page.script, date).Err?
    ensures r.Ok? ==>
              || (JsonRows(page.script, date) == Ok(r.value) && r.value != [])
              || (JsonRows(page.script, date) == Ok([]) && r.value == CardRows(page.cards, date))
  {
    var rows :- JsonRows(page.script, date);
    if rows != [] then Ok(rows) else Ok(CardRows(page.cards, date))
  }

  /** The result comes entirely from one path: every row has six fields (JSON
      path) or every row has seven with "N/A" bathrooms (card path), and
      every row starts with the one capture date. */
  lemma NoMixing(page: Page, date: string)
    requires ExtractData(page, date).Ok?
    ensures var rows := ExtractData(page, date).value;
            || (forall i :: 0 <= i < |rows| ==> |rows[i]| == 6)
            || (forall i :: 0 <= i < |rows| ==> |rows[i]| == 7 && rows[i][5] == NA)
    ensures var rows := ExtractData(page, date).value;
            forall i :: 0 <= i < |rows| ==> |rows[i]| > 0 && rows[i][0] == JStr(date)
  {
  }

  /** The cards decide the result exactly when the JSON path ran to
      completion without appending a row; otherwise the result is the JSON
      path's, rows or exception, whatever the cards are. */
  lemma FallbackExactlyWhenJsonEmpty(page: Page, date: string)
    ensures JsonRows(page.script, date) == Ok([]) ==> ExtractData(page, date) == Ok(CardRows(page.cards, date))
    ensures JsonRows(page.script, date) != Ok([]) ==> ExtractData(page, date) == JsonRows(page.script, date)
  {
  }

  /** A script that fails to decode is treated like a missing one: the cards
      decide. */
  lemma UndecodableFallsBack(cards: seq<Card>, date: string)
    ensures ExtractData(Page(Undecodable, cards), date) == ExtractData(Page(NoScript, cards), date)
    ensures ExtractData(Page(NoScript, cards), date) == Ok(CardRows(cards, date))
  {
  }

  /** The page whose decoded script is `[{"about": xs}]`. */
  function AboutPage(xs: seq<Json>, cards: seq<Card>): (page: Page)
    ensures page.script.Decoded? && AboutIs(page.script.data, xs)
  {
    Page(Decoded(JList([JObj(map["about" := JList(xs)])])), cards)
  }

  /** `data[0]["about"]` is the list `xs`: `data` is a non-empty list whose
      first element is a dict holding "about" (and any other keys, such as
      "@context" and "@type"); the elements after the first do not matter. */
  predicate AboutIs(data: Json, xs: seq<Json>) {
    && data.JList? && |data.items| > 0
    && data.items[0].JObj?
    && "about" in data.items[0].fields
    && data.items[0].fields["about"] == JList(xs)
  }

  /** On such a page the JSON path is the loop over `xs`. */
  lemma AboutPageLoop(page: Page, xs: seq<Json>, date: string)
    requires page.script.Decoded? && AboutIs(page.script.data, xs)
    ensures JsonRows(page.script, date) == ListingRows(xs, date)
  {
    var first := page.script.data.items[0];
    assert First(page.script.data) == Ok(first);
    assert Get(first, "about", JList([])) == Ok(JList(xs));
    assert ListingsOf(JList(xs), date) == ListingRows(xs, date);
  }

  /** JSON path: one six-field row per listing of `data[0]["about"]`, in
      order, and the cards are not looked at. */
  lemma JsonPathRows(page: Page, xs: seq<Json>, date: string)
    requires page.script.Decoded? && AboutIs(page.script.data, xs)
    requires |xs| > 0
    requires forall i :: 0 <= i < |xs| ==> WellFormedListing(xs[i])
    ensures ExtractData(page, date).Ok?
    ensures var rows := ExtractData(page, date).value;
            && |rows| == |xs|
            && forall i :: 0 <= i < |xs| ==> ListingRow(xs[i], date) == Ok(rows[i]) && |rows[i]| == 6
  {
    AboutPageLoop(page, xs, date);
  }

  /** A listing without "address" ends the call with KeyError, whatever the
      cards are: the rows of the listings before it are lost and no
      fallback happens. */
  lemma MissingAddressRaises(page: Page, xs: seq<Json>, k: nat, date: string)
    requires page.script.Decoded? && AboutIs(page.script.data, xs)
    requires k < |xs|
    requires forall j :: 0 <= j < k ==> WellFormedListing(xs[j])
    requires xs[k].JObj? && "address" !in xs[k].fields
    ensures ExtractData(page, date) == Err(KeyError)
  {
    AboutPageLoop(page, xs, date);
    assert !WellFormedListing(xs[k]);
    assert FirstMalformed(xs) == k;
  }

  /** The shapes of `data` that the JSON path does not survive, and the
      exception each raises; none of them is caught, so the cards are never
      consulted. */
  lemma MalformedDataRaises(data: Json, cards: seq<Card>, date: string)
    ensures data == JList([]) ==> ExtractData(Page(Decoded(data), cards), date) == Err(IndexError)
    ensures data.JObj? ==> ExtractData(Page(Decoded(data), cards), date) == Err(KeyError)
    ensures data.JNull? || data.JInt? || data.JBool? ==> ExtractData(Page(Decoded(data), cards), date) == Err(TypeError)
    ensures data.JList? && |data.items| > 0 && !data.items[0].JObj? ==>
              ExtractData(Page(Decoded(data), cards), date) == Err(AttributeError)
    ensures data.JList? && |data.items| > 0 && data.items[0].JObj?
            && "about" in data.items[0].fields
            && (data.items[0].fields["about"].JNull? || data.items[0].fields["about"].JInt?
                || data.items[0].fields["about"].JBool?) ==>
              ExtractData(Page(Decoded(data), cards), date) == Err(TypeError)
    ensures data.JStr? ==>
              ExtractData(Page(Decoded(data), cards), date) == Err(if data.s == "" then IndexError else AttributeError)
    ensures !(data.JList? && |data.items| > 0 && data.items[0].JObj?) ==>
              ExtractData(Page(Decoded(data), cards), date).Err?
  {
  }

  /** A page without a linked-data script: the tag with no single text
      child makes `json.loads(None)` raise TypeError, which is not caught. */
  lemma ScriptWithoutTextRaises(cards: seq<Card>, date: string)
    ensures ExtractData(Page(NoText, cards), date) == Err(TypeError)
  {
  }

  /** A listing without an offer price gets "" (the "N/A" default loses its
      characters in `clean_price`), and one without a floor size gets "N/A". */
  lemma MissingFieldDefaults(apt: Json, date: string)
    requires WellFormedListing(apt)
    ensures "offers" !in apt.fields ==> ListingRow(apt, date).value[2] == JStr("")
    ensures "floorSize" !in apt.fields ==> ListingRow(apt, date).value[5] == NA
  {
    if "offers" !in apt.fields {
      MissingPriceDefault(apt, date);
    }
    if "floorSize" !in apt.fields {
      MissingAreaDefault(apt, date);
    }
  }

  lemma MissingPriceDefault(apt: Json, date: string)
    requires WellFormedListing(apt) && "offers" !in apt.fields
    ensures ListingRow(apt, date).value[2] == JStr("")
  {
    assert Field(apt.fields, "offers", JObj(map[])) == JObj(map[]);
    assert Field(map[], "price", NA) == NA;
    CleanPriceOfMissing();
  }

  lemma MissingAreaDefault(apt: Json, date: string)
    requires WellFormedListing(apt) && "floorSize" !in apt.fields
    ensures ListingRow(apt, date).value[5] == NA
  {
    assert Field(apt.fields, "floorSize", JObj(map[])) == JObj(map[]);
    assert Field(map[], "value", NA) == NA;
    ExtractNumberOfMissing();
  }

  /** A card without `data-price` gets "", and one without `data-floorarea`
      gets "N/A". */
  lemma MissingCardFieldDefaults(card: Card, date: string)
    ensures "data-price" !in card ==> CardRow(card, date)[3] == JStr("")
    ensures "data-floorarea" !in card ==> CardRow(card, date)[6] == NA
  {
    CleanPriceOfMissing();
    ExtractNumberOfMissing();
  }

  /** A one-listing page: a studio in Suba, its price written with a thousands dot. */
  function SubaListing(): Json {
    JObj(map[
      "address" := JObj(map["addressLocality" := JStr("Suba")]),
      "offers" := JObj(map["price" := JStr("$700.000")]),
      "numberOfBedrooms" := JInt(1),
      "numberOfBathroomsTotal" := JInt(1),
      "floorSize" := JObj(map["value" := JStr("30")])])
  }

  lemma SubaScenario(cards: seq<Card>, date: string)
    ensures ExtractData(AboutPage([SubaListing()], cards), date)
            == Ok([[JStr(date), JStr("Suba"), JStr("700000"), JInt(1), JInt(1), JInt(30)]])
  {
    AboutPageLoop(AboutPage([SubaListing()], cards), [SubaListing()], date);
    SubaRow(date);
    SingleListing(SubaListing(), date);
  }

  lemma SingleListing(apt: Json, date: string)
    requires ListingRow(apt, date).Ok?
    ensures ListingRows([apt], date) == Ok([ListingRow(apt, date).value])
  {
    var r := ListingRows([apt], date);
    assert [apt][0] == apt;
    assert r.Ok?;
    assert |r.value| == 1;
    assert ListingRow(apt, date) == Ok(r.value[0]);
    assert r.value == [r.value[0]];
  }

  lemma SubaRow(date: string)
    ensures ListingRow(SubaListing(), date)
            == Ok([JStr(date), JStr("Suba"), JStr("700000"), JInt(1), JInt(1), JInt(30)])
  {
    SubaFields();
    KeepDigitsSevenHundredThousand();
    ExtractNumberWholeExample();
    assert CleanPrice(JStr("$700.000")) == JStr("700000");
  }

  lemma SubaFields()
    ensures WellFormedListing(SubaListing())
    ensures Field(SubaListing().fields["address"].fields, "addressLocality", NA) == JStr("Suba")
    ensures Field(Field(SubaListing().fields, "offers", JObj(map[])).fields, "price", NA) == JStr("$700.000")
    ensures Field(SubaListing().fields, "numberOfBedrooms", NA) == JInt(1)
    ensures Field(SubaListing().fields, "numberOfBathroomsTotal", NA) == JInt(1)
    ensures Field(Field(SubaListing().fields, "floorSize", JObj(map[])).fields, "value", NA) == JStr("30")
  {
  }

  /** A listing card without a floor area. */
  function ScenarioCard(): Card {
    map["title" := "Apartaestudio", "data-location" := "Chapinero",
        "data-price" := "$500.000", "data-rooms" := "1"]
  }

  lemma CardScenario(date: string)
    ensures ExtractData(Page(NoScript, [ScenarioCard()]), date)
            == Ok([[JStr(date), JStr("Apartaestudio"), JStr("Chapinero"), JStr("500000"), JStr("1"), NA, NA]])
  {
    ScenarioCardRow(date);
    UndecodableFallsBack([ScenarioCard()], date);
    assert CardRows([ScenarioCard()], date) == [CardRow(ScenarioCard(), date)];
  }

  lemma ScenarioCardRow(date: string)
    ensures CardRow(ScenarioCard(), date)
            == [JStr(date), JStr("Apartaestudio"), JStr("Chapinero"), JStr("500000"), JStr("1"), NA, NA]
  {
    ScenarioCardAttributes();
    KeepDigitsFiveHundredThousand();
    ExtractNumberOfMissing();
    assert CleanPrice(JStr("$500.000")) == JStr("500000");
  }

  lemma ScenarioCardAttributes()
    ensures Attribute(ScenarioCard(), "title") == "Apartaestudio"
    ensures Attribute(ScenarioCard(), "data-location") == "Chapinero"
    ensures Attribute(ScenarioCard(), "data-price") == "$500.000"
    ensures Attribute(ScenarioCard(), "data-rooms") == "1"
    ensures Attribute(ScenarioCard(), "data-floorarea") == "N/A"
  {
  }

  /** Neither a script nor cards: an empty result, not an exception. */
  lemma EmptyPage(date: string)
    ensures ExtractData(Page(NoScript, []), date) == Ok([])
    ensures ExtractData(Page(Decoded(JList([JObj(map[])])), []), date) == Ok([])
  {
  }
}

=== FILE: handler.dfy ===
/**
 `app`, the Lambda handler: it walks the storage-notification records of
 the event, hands the first object stored in the source bucket to
 `extract_data`, uploads the CSV when rows came out and answers 200, and
 answers 400 when none did. The object store, the two clock reads and the
 `str()` of nested values are parameters.
 */
module Handler {
  import opened PyValue
  import opened Extract
  import opened Csv

  const SourceBucket: string := "parcialbigdatauwu"
  const DestinationBucket: string := "casas-finales-parseadas"

  /** What reading an object from the store and decoding it as UTF-8 gives:
      the parsed page, or a failure that propagates out of the handler. */
  datatype Fetched = Loaded(page: Page) | ReadFailed

  datatype Response = Response(statusCode: int, body: string)

  /** The object `put_object` writes. */
  datatype Upload = Upload(bucket: string, key: string, content: string)

  /** How a call of `app` ends: with a response (and the upload made on the
      way, if any), falling off the end of the loop (Python returns None),
      or with an exception. */
  datatype Outcome =
    | Returned(response: Response, upload: Option<Upload>)
    | ReturnedNone
    | Raised(error: Exception)

  /** The world outside the handler: the object store read keyed by the
      record's object key, the date `extract_data` stamps on rows, the date
      `app` names the CSV after (a second clock read), and `str()` of lists
      and dicts. */
  datatype Environment = Environment(
    load: Json -> Fetched,
    extractDate: string,
    today: string,
    nested: Json -> string)

  /** `record["s3"]["bucket"]["name"]` and `record["s3"]["object"]["key"]`,
      both read before the bucket is compared. */
  function Location(record: Json): (r: Result<(Json, Json)>)
    ensures r.Ok? <==> HasLocation(record)
    ensures r.Ok? ==> var s3 := record.fields["s3"].fields;
                      r.value == (s3["bucket"].fields["name"], s3["object"].fields["key"])
    ensures !record.JObj? ==> r == Err(TypeError)
  {
    var s3 :- Subscript(record, "s3");
    var bucketInfo :- Subscript(s3, "bucket");
    var bucket :- Subscript(bucketInfo, "name");
    var objectInfo :- Subscript(s3, "object");
    var key :- Subscript(objectInfo, "key");
    Ok((bucket, key))
  }

  /** `record["s3"]["bucket"]["name"]` and `record["s3"]["object"]["key"]`
      can both be read: every step subscripts a dict that holds the key. */
  predicate HasLocation(record: Json) {
    && record.JObj? && "s3" in record.fields
    && var s3 := record.fields["s3"];
    && s3.JObj? && "bucket" in s3.fields && "object" in s3.fields
    && s3.fields["bucket"].JObj? && "name" in s3.fields["bucket"].fields
    && s3.fields["object"].JObj? && "key" in s3.fields["object"].fields
  }

  /** The CSV name: the processing date followed by ".csv". */
  function CsvName(today: string): string {
    today + ".csv"
  }

  /** The branch for a record of the source bucket: read the object, extract
      its rows, and answer. */
  function HandleObject(key: Json, env: Environment): (o: Outcome)
    ensures !o.ReturnedNone?
    ensures o.Returned? ==> o.response.statusCode == 200 || o.response.statusCode == 400
    ensures o.Raised? <==>
              env.load(key).ReadFailed? || ExtractData(env.load(key).page, env.extractDate).Err?
    ensures o.Returned? && o.response.statusCode == 200 <==>
              && env.load(key).Loaded?
              && ExtractData(env.load(key).page, env.extractDate).Ok?
              && ExtractData(env.load(key).page, env.extractDate).value != []
    ensures o.Returned? && o.response.statusCode == 200 ==>
              o.upload == Some(Upload(DestinationBucket, CsvName(env.today),
                                      Render(ExtractData(env.load(key).page, env.extractDate).value, env.nested)))
    ensures o.Returned? && o.response.statusCode == 400 ==> o.upload == None
  {
    match env.load(key)
    case ReadFailed => Raised(StorageError)
    case Loaded(page) =>
      match ExtractData(page, env.extractDate)
      case Err(e) => Raised(e)
      case Ok(rows) =>
        if rows != [] then
          var name := CsvName(env.today);
          Returned(Response(200, "Archivo procesado y guardado en s3://" + DestinationBucket + "/" + name),
                   Some(Upload(DestinationBucket, name, Render(rows, env.nested))))
        else
          Returned(Response(400, "No se encontraron datos en el HTML."), None)
  }

  /** `for record in event["Records"]` over a list of records. */
  function ProcessRecords(records: seq<Json>, env: Environment): (o: Outcome)
    ensures o.ReturnedNone? <==>
              forall j :: 0 <= j < |records| ==> Location(records[j]).Ok? && Location(records[j]).value.0 != JStr(SourceBucket)
    ensures o.Returned? ==> o.response.statusCode == 200 || o.response.statusCode == 400
    ensures o.Returned? ==> (o.response.statusCode == 200 <==> o.upload.Some?)
    ensures o.Returned? && o.upload.Some? ==>
              o.upload.value.bucket == DestinationBucket && o.upload.value.key == CsvName(env.today)
  {
    if records == [] then ReturnedNone
    else
      assert forall j :: 1 <= j < |records| ==> records[1..][j - 1] == records[j];
      match Location(records[0])
      case Err(e) => Raised(e)
      case Ok((bucket, key)) =>
        if bucket == JStr(SourceBucket) then HandleObject(key, env)
        else ProcessRecords(records[1..], env)
  }

  /** `app(event, context)`. Iterating a dict or a str yields strs, which the
      loop body cannot subscript with "s3" (TypeError), as for the listings
      in `extract_data`. */
  function App(event: Json, env: Environment): (o: Outcome)
    ensures !event.JObj? ==> o == Raised(TypeError)
    ensures event.JObj? && "Records" !in event.fields ==> o == Raised(KeyError)
    ensures o.Returned? ==> o.response.statusCode == 200 || o.response.statusCode == 400
    ensures o.Returned? ==> (o.response.statusCode == 200 <==> o.upload.Some?)
    ensures o.Returned? && o.upload.Some? ==>
              o.upload.value.bucket == DestinationBucket && o.upload.value.key == CsvName(env.today)
  {
    match Subscript(event, "Records")
    case Err(e) => Raised(e)
    case Ok(records) =>
      match records
      case JList(xs) => ProcessRecords(xs, env)
      case JStr(s) => ProcessRecords(Chars(s), env)
      case JObj(m) => if |m| == 0 then ReturnedNone else Raised(TypeError)
      case _ => Raised(TypeError)
  }

  /** A record is skipped when it names another bucket; the first record that
      names the source bucket decides the outcome, and the records after it
      are never looked at. */
  lemma {:induction false} FirstSourceRecordDecides(records: seq<Json>, k: nat, key: Json, env: Environment)
    requires k < |records|
    requires forall j :: 0 <= j < k ==> Location(records[j]).Ok? && Location(records[j]).value.0 != JStr(SourceBucket)
    requires Location(records[k]) == Ok((JStr(SourceBucket), key))
    ensures ProcessRecords(records, env) == HandleObject(key, env)
  {
    if k > 0 {
      assert Location(records[0]).Ok?;
      var rest := records[1..];
      forall j | 0 <= j < k - 1
        ensures Location(rest[j]).Ok? && Location(rest[j]).value.0 != JStr(SourceBucket)
      {
        assert rest[j] == records[j + 1];
      }
      FirstSourceRecordDecides(rest, k - 1, key, env);
    }
  }

  /** A record whose bucket or key cannot be read, after readable records of
      other buckets, ends the loop with its exception: the records after it
      are never looked at, even one of the source bucket. */
  lemma {:induction false} FirstUnreadableRaises(records: seq<Json>, k: nat, env: Environment)
    requires k < |records|
    requires forall j :: 0 <= j < k ==> Location(records[j]).Ok? && Location(records[j]).value.0 != JStr(SourceBucket)
    requires Location(records[k]).Err?
    ensures ProcessRecords(records, env) == Raised(Location(records[k]).error)
  {
    if k > 0 {
      assert Location(records[0]).Ok?;
      var rest := records[1..];
      forall j | 0 <= j < k - 1
        ensures Location(rest[j]).Ok? && Location(rest[j]).value.0 != JStr(SourceBucket)
      {
        assert rest[j] == records[j + 1];
      }
      FirstUnreadableRaises(rest, k - 1, env);
    }
  }

  /** When no record names the source bucket and all are well formed, the
      record loop returns None: neither 200 nor 400. */
  lemma {:induction false} NoSourceRecord(records: seq<Json>, env: Environment)
    requires forall j :: 0 <= j < |records| ==> Location(records[j]).Ok? && Location(records[j]).value.0 != JStr(SourceBucket)
    ensures ProcessRecords(records, env) == ReturnedNone
  {
    if records != [] {
      assert Location(records[0]).Ok?;
      var rest := records[1..];
      forall j | 0 <= j < |rest|
        ensures Location(rest[j]).Ok? && Location(rest[j]).value.0 != JStr(SourceBucket)
      {
        assert rest[j] == records[j + 1];
      }
      NoSourceRecord(rest, env);
    }
  }

  /** A record without an object key raises KeyError even when its bucket is
      not the source bucket: the key is read before the comparison. */
  lemma MissingKeyRaises(bucket: Json, env: Environment)
    ensures var record := JObj(map["s3" := JObj(map["bucket" := JObj(map["name" := bucket]),
                                                    "object" := JObj(map[])])]);
            ProcessRecords([record], env) == Raised(KeyError)
  {
  }

  /** The uploaded CSV of a 200 answer starts with the header line and, when
      no cell text holds a newline, has one line per row after it. */
  lemma UploadedCsvLines(key: Json, env: Environment)
    requires HandleObject(key, env).Returned? && HandleObject(key, env).response.statusCode == 200
    requires NoCellHolds(ExtractData(env.load(key).page, env.extractDate).value, '\n', env.nested)
    ensures var content := HandleObject(key, env).upload.value.content;
            var rows := ExtractData(env.load(key).page, env.extractDate).value;
            && Split(content, '\n') == [Header] + Lines(rows, env.nested)
            && |Split(content, '\n')| == |rows| + 1
  {
    RenderLines(ExtractData(env.load(key).page, env.extractDate).value, env.nested);
  }

  /** For an event whose "Records" is a list, the first record of the source
      bucket decides what `app` returns: 200 exactly when `extract_data`
      gave rows, 400 exactly when it gave none. */
  lemma AppDecidedByFirstSourceRecord(event: Json, records: seq<Json>, k: nat, key: Json, env: Environment)
    requires event.JObj? && "Records" in event.fields && event.fields["Records"] == JList(records)
    requires k < |records|
    requires forall j :: 0 <= j < k ==> Location(records[j]).Ok? && Location(records[j]).value.0 != JStr(SourceBucket)
    requires Location(records[k]) == Ok((JStr(SourceBucket), key))
    ensures App(event, env) == HandleObject(key, env)
    ensures var o := App(event, env);
            var extracted := if env.load(key).Loaded? then ExtractData(env.load(key).page, env.extractDate) else Err(StorageError);
            && (o.Returned? && o.response.statusCode == 200 <==> extracted.Ok? && extracted.value != [])
            && (o.Returned? && o.response.statusCode == 400 <==> extracted == Ok([]))
  {
    FirstSourceRecordDecides(records, k, key, env);
  }

  /** An event without "Records" raises KeyError; a non-empty dict or str in
      its place raises TypeError, an empty one makes `app` return None. */
  lemma AppRecordsShapes(event: Json, env: Environment)
    ensures event.JObj? && "Records" !in event.fields ==> App(event, env) == Raised(KeyError)
    ensures !event.JObj? ==> App(event, env) == Raised(TypeError)
    ensures event.JObj? && "Records" in event.fields && event.fields["Records"] == JObj(map[]) ==>
              App(event, env) == ReturnedNone
    ensures (event.JObj? && "Records" in event.fields && event.fields["Records"].JStr?
             && event.fields["Records"].s != "") ==> App(event, env) == Raised(TypeError)
  {
  }
}

=== FILE: normalise.dfy ===
/**
 The two field normalisers of the parser: `clean_price`, which keeps the
 digit characters of a price text, and `extract_number`, which reads a
 number out of a text and truncates it to an integer; together with the
 decimal notation `str()` gives integers, which `extract_number` reads back.
 */
module Normalise {
  import opened PyValue

  /** `str.isdigit` on one character: the ASCII digits and the Latin-1
      superscripts one, two and three (as in "m²"). */
  predicate IsDigit(c: char) {
    ('0' <= c <= '9') || ('\U{B2}' <= c <= '\U{B3}') || c == '\U{B9}'
  }

  /** The digits `float()` reads (ASCII only). */
  predicate IsAsciiDigit(c: char) {
    '0' <= c <= '9'
  }

  predicate AllDigits(s: string) {
    forall i :: 0 <= i < |s| ==> IsDigit(s[i])
  }

  predicate AllAsciiDigits(s: string) {
    forall i :: 0 <= i < |s| ==> IsAsciiDigit(s[i])
  }

  /** `a` and `b` hold each digit character equally often. */
  predicate SameDigits(a: string, b: string) {
    forall c :: IsDigit(c) ==> multiset(a)[c] == multiset(b)[c]
  }

  /** The digit characters of `s`, in their order: `"".join(filter(str.isdigit, s))`. */
  function KeepDigits(s: string): (r: string)
    ensures |r| <= |s|
  {
    if s == [] then []
    else (if IsDigit(s[0]) then [s[0]] else []) + KeepDigits(s[1..])
  }

  /** What is kept is digits only, and every digit of the input is kept, as
      often as it occurs there. */
  lemma {:induction false} KeepDigitsKeepsExactlyDigits(s: string)
    ensures AllDigits(KeepDigits(s))
    ensures SameDigits(KeepDigits(s), s)
  {
    if s != [] {
      KeepDigitsKeepsExactlyDigits(s[1..]);
      assert s == [s[0]] + s[1..];
      var head := if IsDigit(s[0]) then [s[0]] else [];
      assert KeepDigits(s) == head + KeepDigits(s[1..]);
      assert multiset(KeepDigits(s)) == multiset(head) + multiset(KeepDigits(s[1..]));
      assert multiset(s) == multiset([s[0]]) + multiset(s[1..]);
    }
  }

  /** Filtering distributes over concatenation; with `KeepDigitsOfOne` this
      fixes the order of the kept digits to their order in the input. */
  lemma {:induction false} KeepDigitsAppend(a: string, b: string)
    ensures KeepDigits(a + b) == KeepDigits(a) + KeepDigits(b)
  {
    if a == [] {
      assert a + b == b;
    } else {
      var head := if IsDigit(a[0]) then [a[0]] else [];
      assert (a + b)[1..] == a[1..] + b;
      assert (a + b)[0] == a[0];
      assert KeepDigits(a + b) == head + KeepDigits(a[1..] + b);
      KeepDigitsAppend(a[1..], b);
      assert KeepDigits(a) == head + KeepDigits(a[1..]);
    }
  }

  lemma KeepDigitsOfOne(c: char)
    ensures KeepDigits([c]) == (if IsDigit(c) then [c] else [])
  {
    assert [c][1..] == [];
  }

  /** A text is left unchanged exactly when it consists of digits only. */
  lemma {:induction false} KeepDigitsFixedPoint(s: string)
    ensures KeepDigits(s) == s <==> AllDigits(s)
  {
    if s == [] {
    } else {
      KeepDigitsFixedPoint(s[1..]);
      if AllDigits(s) {
        assert AllDigits(s[1..]) by {
          forall i | 0 <= i < |s[1..]| ensures IsDigit(s[1..][i]) {
            assert s[1..][i] == s[i + 1];
          }
        }
      }
      if KeepDigits(s) == s {
        KeepDigitsKeepsExactlyDigits(s);
      }
    }
  }

  /** A text without any digit character loses every character. */
  lemma {:induction false} KeepDigitsNoDigits(s: string)
    requires forall i :: 0 <= i < |s| ==> !IsDigit(s[i])
    ensures KeepDigits(s) == ""
  {
    if s != [] {
      KeepDigitsNoDigits(s[1..]);
    }
  }

  /** `clean_price`: a non-empty str loses its non-digit characters; any
      other value, and the empty str, becomes "N/A". */
  function CleanPrice(price: Json): (r: Json)
    ensures r.JStr?
    ensures r == NA <==> !(price.JStr? && price.s != "")
  {
    if price.JStr? && price.s != "" then
      var digits := KeepDigits(price.s);
      KeepDigitsKeepsExactlyDigits(price.s);
      assert |digits| == 0 || IsDigit(digits[0]);
      assert !IsDigit('N');
      JStr(digits)
    else NA
  }

  /** For a non-empty str, `clean_price` gives exactly its digits: only digit
      characters, each as often as in the input. */
  lemma CleanPriceKeepsExactlyDigits(s: string)
    requires s != ""
    ensures AllDigits(CleanPrice(JStr(s)).s) && SameDigits(CleanPrice(JStr(s)).s, s)
  {
    KeepDigitsKeepsExactlyDigits(s);
  }

  /** A non-empty all-digit str is a fixed point of `clean_price`. */
  lemma CleanPriceFixedPoint(s: string)
    requires s != "" && AllDigits(s)
    ensures CleanPrice(JStr(s)) == JStr(s)
  {
    KeepDigitsFixedPoint(s);
  }

  /** A non-empty str without digits becomes the empty str, and so does the
      "N/A" default a missing price falls back to. */
  lemma CleanPriceWithoutDigits(s: string)
    requires s != ""
    requires forall i :: 0 <= i < |s| ==> !IsDigit(s[i])
    ensures CleanPrice(JStr(s)) == JStr("")
  {
    KeepDigitsNoDigits(s);
  }

  lemma CleanPriceOfMissing()
    ensures CleanPrice(NA) == JStr("")
  {
    CleanPriceWithoutDigits("N/A");
  }

  /** `clean_price` is not idempotent: "abc" becomes "", which becomes "N/A". */
  lemma CleanPriceNotIdempotent()
    ensures CleanPrice(JStr("abc")) == JStr("")
    ensures CleanPrice(CleanPrice(JStr("abc"))) == NA
  {
    CleanPriceWithoutDigits("abc");
  }

  lemma CleanPriceExample()
    ensures CleanPrice(JStr("$1.234.000")) == JStr("1234000")
    ensures CleanPrice(JNull) == NA && CleanPrice(JInt(42)) == NA
  {
    KeepDigitsExample();
  }

  lemma KeepDigitsExample()
    ensures KeepDigits("$1.234.000") == "1234000"
  {
    assert AllDigits("1") && AllDigits("234") && AllDigits("000");
    KeepDigitsOfMillions("1", "234", "000");
    assert "$" + "1" + "." + "234" + "." + "000" == "$1.234.000";
    assert "1" + "234" + "000" == "1234000";
  }

  /** A price written "$" digits "." digits "." digits keeps the three digit
      runs. */
  lemma KeepDigitsOfMillions(millions: string, thousands: string, units: string)
    requires AllDigits(millions) && AllDigits(thousands) && AllDigits(units)
    ensures KeepDigits("$" + millions + "." + thousands + "." + units) == millions + thousands + units
  {
    KeepDigitsOfPrice(millions, thousands);
    KeepDigitsDotGroup("$" + millions + "." + thousands, units);
  }

  /** A thousands separator followed by a run of digits adds just the digits. */
  lemma KeepDigitsDotGroup(prefix: string, group: string)
    requires AllDigits(group)
    ensures KeepDigits(prefix + "." + group) == KeepDigits(prefix) + group
  {
    KeepDigitsAppend(prefix + ".", group);
    KeepDigitsAppend(prefix, ".");
    KeepDigitsOfOne('.');
    KeepDigitsFixedPoint(group);
  }

  /** A price written "$" digits "." digits keeps both digit runs. */
  lemma KeepDigitsOfPrice(whole: string, thousands: string)
    requires AllDigits(whole) && AllDigits(thousands)
    ensures KeepDigits("$" + whole + "." + thousands) == whole + thousands
  {
    KeepDigitsDotGroup("$" + whole, thousands);
    KeepDigitsAppend("$", whole);
    KeepDigitsOfOne('$');
    KeepDigitsFixedPoint(whole);
  }

  lemma KeepDigitsSevenHundredThousand()
    ensures KeepDigits("$700.000") == "700000"
  {
    KeepDigitsOfPriceExample("700");
    assert "$" + "700" + ".000" == "$700.000";
  }

  lemma KeepDigitsFiveHundredThousand()
    ensures KeepDigits("$500.000") == "500000"
  {
    KeepDigitsOfPriceExample("500");
    assert "$" + "500" + ".000" == "$500.000";
  }

  lemma KeepDigitsOfPriceExample(hundreds: string)
    requires |hundreds| == 3 && AllDigits(hundreds)
    ensures KeepDigits("$" + hundreds + ".000") == hundreds + "000"
  {
    assert AllDigits("000");
    KeepDigitsOfPrice(hundreds, "000");
    assert "$" + hundreds + "." + "000" == "$" + hundreds + ".000";
  }

  /** The superscript two of "m²" counts as a digit, as it does for `str.isdigit`. */
  lemma KeepDigitsSuperscript()
    ensures KeepDigits("30 m\U{B2}") == "30\U{B2}"
  {
    var digits, unit, square := "30", " m", "\U{B2}";
    assert digits + (unit + square) == "30 m\U{B2}";
    KeepDigitsAppend(digits, unit + square);
    KeepDigitsAppend(unit, square);
    assert AllDigits(digits);
    KeepDigitsFixedPoint(digits);
    KeepDigitsNoDigits(unit);
    KeepDigitsOfOne('\U{B2}');
    assert KeepDigits(digits + (unit + square)) == digits + square;
    assert digits + square == "30\U{B2}";
  }

  // ----- Decimal notation of integers -----

  function DigitValue(c: char): (d: nat)
    requires IsAsciiDigit(c)
    ensures d < 10
  {
    (c as int) - ('0' as int)
  }

  function DigitChar(d: nat): (c: char)
    requires d < 10
    ensures IsAsciiDigit(c) && DigitValue(c) == d
  {
    ((('0' as int) + d) as char)
  }

  /** The value of a string of ASCII digits read most significant first; the
      empty string reads as 0. */
  function DecimalValue(ds: string): nat
    requires AllAsciiDigits(ds)
  {
    if ds == [] then 0
    else DecimalValue(ds[..|ds| - 1]) * 10 + DigitValue(ds[|ds| - 1])
  }

  /** `str(n)` for a natural number: its digits, without leading zeros. */
  function NatToDecimal(n: nat): (r: string)
    ensures |r| >= 1 && AllAsciiDigits(r)
    ensures r[0] == '0' ==> n == 0
  {
    if n < 10 then [DigitChar(n)]
    else NatToDecimal(n / 10) + [DigitChar(n % 10)]
  }

  /** `str(i)` for any integer: a minus sign before the digits of a negative one. */
  function IntToDecimal(i: int): string
  {
    if i < 0 then "-" + NatToDecimal(-i) else NatToDecimal(i)
  }

  /** Reading back the decimal notation of a natural number gives the number. */
  lemma {:induction false} DecimalRoundTrip(n: nat)
    ensures DecimalValue(NatToDecimal(n)) == n
  {
    if n >= 10 {
      var r := NatToDecimal(n);
      assert r[..|r| - 1] == NatToDecimal(n / 10);
      DecimalRoundTrip(n / 10);
    }
  }

  // ----- extract_number -----

  /** The position of the first '.' in `s`, or `|s|` when there is none. */
  function DotIndex(s: string): (k: nat)
    ensures k <= |s|
    ensures forall i :: 0 <= i < k ==> s[i] != '.'
    ensures k < |s| ==> s[k] == '.'
  {
    if s == [] then 0
    else if s[0] == '.' then 0
    else 1 + DotIndex(s[1..])
  }

  /** The unsigned part of a numeric text: digits with an optional
      fractional part (`12`, `12.`, `12.5`, `.5`), at least one digit in all,
      read as the value of its whole part. Any other text is `None`. */
  function UnsignedValue(body: string): (r: Option<int>)
    ensures r.Some? ==> r.value >= 0
    ensures (forall i :: 0 <= i < |body| ==> !IsAsciiDigit(body[i])) ==> r == None
  {
    var dot := DotIndex(body);
    var whole := body[..dot];
    var fraction := if dot < |body| then body[dot + 1..] else "";
    if AllAsciiDigits(whole) && AllAsciiDigits(fraction) && |whole| + |fraction| > 0 then
      assert |whole| > 0 ==> whole[0] in body;
      assert |whole| == 0 ==> fraction[0] in body;
      Some(DecimalValue(whole))
    else None
  }

  /** `int(float(s))` on the numeric texts this model admits: an optional
      sign before the unsigned part. Dropping the fraction truncates toward
      zero. Any other text is `None` (a ValueError). */
  function TruncatedValue(s: string): (r: Option<int>)
    ensures (forall i :: 0 <= i < |s| ==> !IsAsciiDigit(s[i])) ==> r == None
  {
    if |s| > 0 && s[0] == '-' then
      match UnsignedValue(s[1..])
      case Some(m) => Some(-m)
      case None => None
    else if |s| > 0 && s[0] == '+' then UnsignedValue(s[1..])
    else UnsignedValue(s)
  }

  /** `extract_number`: `int(float(value))`, with ValueError and TypeError
      turned into "N/A". An int is itself, a bool is 0 or 1, None, lists and
      dicts are "N/A", and a str is its truncated numeric value or "N/A". */
  function ExtractNumber(value: Json): (r: Json)
    ensures r.JInt? || r == NA
    ensures value.JInt? ==> r == value
    ensures value.JBool? ==> r == JInt(if value.b then 1 else 0)
    ensures value.JNull? || value.JList? || value.JObj? ==> r == NA
    ensures value.JStr? && r.JInt? ==> exists i :: 0 <= i < |value.s| && IsAsciiDigit(value.s[i])
  {
    match value
    case JInt(i) => JInt(i)
    case JBool(b) => JInt(if b then 1 else 0)
    case JStr(s) =>
      (match TruncatedValue(s)
       case Some(n) => JInt(n)
       case None => NA)
    case _ => NA
  }

  /** A run of digits, with or without a fractional part after it, reads
      as the value of the run. */
  lemma UnsignedValueOfDigits(digits: string, fraction: string)
    requires |digits| > 0 && AllAsciiDigits(digits) && AllAsciiDigits(fraction)
    ensures UnsignedValue(digits) == Some(DecimalValue(digits))
    ensures UnsignedValue(digits + "." + fraction) == Some(DecimalValue(digits))
  {
    assert digits[..|digits|] == digits;
    DotIndexAfterDigits(digits, |digits|);
    var t := digits + "." + fraction;
    assert t[..|digits|] == digits;
    assert t[|digits| + 1..] == fraction;
    DotIndexAfterDigits(t, |digits|);
  }

  /** The decimal notation of an integer, with or without a fractional part
      after it, reads back as that integer: the fraction is truncated. */
  lemma TruncatedValueOfDecimal(n: int, fraction: string)
    requires AllAsciiDigits(fraction)
    ensures TruncatedValue(IntToDecimal(n)) == Some(n)
    ensures TruncatedValue(IntToDecimal(n) + "." + fraction) == Some(n)
  {
    var m: nat := if n < 0 then -n else n;
    var digits := NatToDecimal(m);
    DecimalRoundTrip(m);
    UnsignedValueOfDigits(digits, fraction);
    var t := digits + "." + fraction;
    assert t[0] == digits[0];
    if n < 0 {
      assert IntToDecimal(n) == "-" + digits;
      TruncatedValueOfNegative(digits);
      assert IntToDecimal(n) + "." + fraction == "-" + t;
      TruncatedValueOfNegative(t);
    } else {
      TruncatedValueOfUnsigned(digits);
      TruncatedValueOfUnsigned(t);
    }
  }

  lemma TruncatedValueOfUnsigned(s: string)
    requires |s| > 0 && IsAsciiDigit(s[0])
    ensures TruncatedValue(s) == UnsignedValue(s)
  {
  }

  lemma TruncatedValueOfNegative(s: string)
    requires |s| > 0 && IsAsciiDigit(s[0])
    ensures UnsignedValue(s).Some? ==> TruncatedValue("-" + s) == Some(-UnsignedValue(s).value)
  {
    assert ("-" + s)[1..] == s;
  }

  /** Helper: the first dot of a text that starts with a run of digits ends the run. */
  lemma DotIndexAfterDigits(s: string, k: nat)
    requires 0 < k <= |s| && AllAsciiDigits(s[..k]) && (k == |s| || s[k] == '.')
    ensures DotIndex(s) == k
  {
    var d := DotIndex(s);
    forall i | 0 <= i < k ensures s[i] != '.' {
      assert s[..k][i] == s[i];
    }
    assert d >= k;
    assert d <= k;
  }

  /** `extract_number` reads back every integer `str()` writes, and the "N/A"
      default of a missing area stays "N/A". */
  lemma ExtractNumberOfRendering(n: int)
    ensures ExtractNumber(JStr(IntToDecimal(n))) == JInt(n)
    ensures ExtractNumber(NA) == NA
  {
    TruncatedValueOfDecimal(n, "");
    ExtractNumberOfMissing();
  }

  lemma ExtractNumberOfMissing()
    ensures ExtractNumber(NA) == NA
  {
    assert TruncatedValue("N/A") == None by {
      assert !IsAsciiDigit("N/A"[0]) && !IsAsciiDigit("N/A"[1]) && !IsAsciiDigit("N/A"[2]);
    }
  }

  lemma ExtractNumberExample()
    ensures ExtractNumber(JStr("55.7")) == JInt(55)
    ensures ExtractNumber(JStr("30")) == JInt(30)
    ensures ExtractNumber(JStr("abc")) == NA
  {
    ExtractNumberFractionExample();
    ExtractNumberWholeExample();
    ExtractNumberWordExample();
  }

  lemma ExtractNumberFractionExample()
    ensures ExtractNumber(JStr("55.7")) == JInt(55)
  {
    assert NatToDecimal(55) == "55";
    TruncatedValueOfDecimal(55, "7");
    assert "55" + "." + "7" == "55.7";
  }

  lemma ExtractNumberWholeExample()
    ensures ExtractNumber(JStr("30")) == JInt(30)
  {
    assert NatToDecimal(30) == "30";
    TruncatedValueOfDecimal(30, "");
  }

  lemma ExtractNumberWordExample()
    ensures ExtractNumber(JStr("abc")) == NA
  {
    assert TruncatedValue("abc") == None by {
      assert !IsAsciiDigit("abc"[0]) && !IsAsciiDigit("abc"[1]) && !IsAsciiDigit("abc"[2]);
    }
  }

  lemma ExtractNumberNegativeExample()
    ensures ExtractNumber(JStr("-3.9")) == JInt(-3)
  {
    assert NatToDecimal(3) == "3";
    TruncatedValueOfDecimal(-3, "9");
    assert "-" + "3" + "." + "9" == "-3.9";
  }

  lemma ExtractNumberTwoDotsExample()
    ensures ExtractNumber(JStr("1.2.3")) == NA
  {
    var s := "1.2.3";
    assert DotIndex(s) == 1;
    assert s[2..][1] == '.';
  }
}

=== FILE: pyvalue.dfy ===
/**
 The Python values the parser handles: the values `json.loads` produces, which
 are also the values that end up in the cells of an extracted row, together
 with the exceptions the parser lets escape and the few Python operations on
 values (`v[k]`, `v[0]`, `v.get(k, d)`) whose error behaviour it relies on.
 */
module PyValue {

  /** A Python value as decoded from JSON. A JSON object becomes a dict from
      string keys to values; its key order is not kept. */
  datatype Json =
    | JNull
    | JBool(b: bool)
    | JInt(i: int)
    | JStr(s: string)
    | JList(items: seq<Json>)
    | JObj(fields: map<string, Json>)

  /** A cell of an extracted row is any Python value. */
  type Cell = Json

  /** One extracted record. */
  type Row = seq<Cell>

  /** The exceptions that can escape the parser. `StorageError` stands for any
      failure of the object store read (or of decoding its bytes as UTF-8). */
  datatype Exception = KeyError | TypeError | AttributeError | IndexError | StorageError

  /** A computation that either yields a value or raises an exception. */
  datatype Result<+T> = Ok(value: T) | Err(error: Exception) {
    predicate IsFailure() {
      Err?
    }

    function PropagateFailure<U>(): Result<U>
      requires Err?
    {
      Err(error)
    }

    function Extract(): T
      requires Ok?
    {
      value
    }
  }

  datatype Option<+T> = None | Some(value: T)

  /** The unresolved marker: the string "N/A", used as a value. */
  const NA: Json := JStr("N/A")

  /** `v[key]` for a string key: only a dict holding `key` answers; a dict
      without it raises KeyError and every other value raises TypeError. */
  function Subscript(v: Json, key: string): Result<Json>
  {
    match v
    case JObj(m) => if key in m then Ok(m[key]) else Err(KeyError)
    case _ => Err(TypeError)
  }

  /** `v[0]`: the first element of a list, the first character (as a str) of
      a str; an empty one raises IndexError. A decoded dict has only string
      keys, so `0` is never among them (KeyError); numbers, booleans and None
      are not subscriptable (TypeError). */
  function First(v: Json): Result<Json>
  {
    match v
    case JList(xs) => if |xs| == 0 then Err(IndexError) else Ok(xs[0])
    case JStr(s) => if |s| == 0 then Err(IndexError) else Ok(JStr([s[0]]))
    case JObj(_) => Err(KeyError)
    case _ => Err(TypeError)
  }

  /** `v.get(key, default)`: only a dict has `get`; on anything else the
      attribute lookup raises AttributeError. */
  function Get(v: Json, key: string, default: Json): Result<Json>
  {
    match v
    case JObj(m) => Ok(if key in m then m[key] else default)
    case _ => Err(AttributeError)
  }

  /** The one-character strs that iterating over a str yields. */
  function Chars(s: string): (r: seq<Json>)
    ensures |r| == |s|
    ensures forall i :: 0 <= i < |s| ==> r[i] == JStr([s[i]])
  {
    if s == [] then [] else [JStr([s[0]])] + Chars(s[1..])
  }
}
